=== FILE: README.md ===
# Product-post form: a Dafny model

This project models the core of a small marketing-post web page. It covers the
product form, which collects a product name, price and image, generates a French
and an English caption, lets the user review and edit them, and "sends" them. It
also covers the image attachment widget that feeds the form its image. The
generation and the sending are simulated in the original with fixed delays. Here
every handler of the two components is a pure function over an immutable state
record. Each `await`, timer and `FileReader` completion is an explicit event.

Modules:

- `Optional`: the `Option` type used where the source uses `null`.
- `Text`: the JavaScript string operations the components use. These are `trim`
  (ECMAScript whitespace and line terminators), the `\s` class, `startsWith`,
  and a global character-class `replace`, modelled as the filter `Keep`. It also
  defines `Contains`, a predicate that the properties of the captions are stated
  with; no component calls `includes`.
- `ImageUpload`: the widget's state (hover flag, URL box open, URL text) and its
  handlers. Each event handler of the drop zone, file input, URL box and remove
  button that reaches the parent returns the next state, the `onImageChange`
  calls it makes before it returns, and the file reads it starts. The handlers
  that only touch the widget's own state return the next state alone. The file
  gate, `HandleFile`, returns the reads it starts. A read's `onload` is a separate
  function, `ReadLoaded`, which runs later and returns the reported image.
- `ProductForm`: the form state and one function per handler. It also holds the
  `canGenerate` and `canSend` guards, the price filter, the hashtag and the
  caption templates.
- `Workflow`: the page as a transition system. A `Page` is the form's state plus
  the multiset of file reads still pending. `Enabled` says when the rendered page
  lets an event happen: which stage renders the control, and its `disabled`
  attribute. A pending read can complete in any stage. `Step` runs the handler,
  and `Run` folds a list of events. Every allowed run keeps the invariant `Inv`.

Behaviour worth knowing, as the code has it:

- The name and price inputs stay editable while a generation is pending. The
  pending call builds the captions from the form as it was submitted, because
  the handler's closure holds that render's `formData`. The model keeps this
  snapshot in `State.submitted` (`ProductForm.EditsWhileGeneratingIgnored`).
- The `sending` stage is declared but never assigned, so it is unreachable
  (`Workflow.ReachableStates`).
- Selecting a caption while the *other* one is expanded switches the expansion.
  So toggling the same caption twice restores the state only when the other
  caption was not the expanded one (`ProductForm.ToggleTwice`). At most one
  caption is expanded by construction, since `expanded` is an `Option<Language>`.
- Clear does not reset `expandedCaption`, the notice or the busy flags. The Clear
  button is rendered only in the input stage. The auto-reset after a send runs
  the same handler.
- In the `complete` stage the page renders neither the form nor the captions.
  Only the auto-reset timer and the notification remain.
- A non-image file is dropped silently: no callback and no notice.
- The image widget stays active while captions are being generated, and a file
  read finishes whenever it finishes. So an image dropped during generation can
  arrive after the captions stage is reached, and it then sets the draft's image
  there (`Workflow.LateImageAfterGeneration`). Clear does not cancel a pending
  read either.
- The URL box sits inside the generation form, and its Enter handler does not
  stop the browser's implicit submission. So Enter in the URL box adds the URL
  and, when Generate is enabled, may also submit the form, depending on whether
  the re-render that removes the box comes before the browser's default action.
  The model covers the submitting case as `SubmitUrl` followed by `SubmitForm`,
  which are enabled in turn; the captions do not depend on the image.

## Model

| member | source | states |
|---|---|---|
| Text.TrimStart | src/components/ImageUpload.tsx:55 | leading half of `trim`: a suffix of the input, only whitespace removed, result does not start with whitespace |
| Text.TrimEnd | src/components/ImageUpload.tsx:55 | trailing half of `trim`: a prefix of the input, only whitespace removed, result does not end with whitespace |
| Text.Trim | src/components/ImageUpload.tsx:55 | neither end of a trimmed string is whitespace |
| Text.TrimIsInfix | src/components/ImageUpload.tsx:55-58 | the trimmed string is the infix `s[i..j]`, with only whitespace before `i` and after `j`, and visible characters at both ends |
| Text.TrimEmptyIff | src/components/ProductForm.tsx:61 | `x.trim()` is empty (falsy) exactly when every character of `x` is whitespace |
| Text.TrimIdempotent | src/components/ImageUpload.tsx:57-58 | trimming twice equals trimming once |
| Text.Keep | src/components/ProductForm.tsx:177 | a character-class `replace` never lengthens the string |
| Text.KeepPasses | src/components/ProductForm.tsx:177 | every character left by the filter belongs to the kept class |
| Text.KeepAppend | src/components/ProductForm.tsx:177 | the filter distributes over concatenation |
| Text.Positions | src/components/ProductForm.tsx:177 | the kept positions, strictly increasing, each a passing character, and none missing |
| Text.KeepSelects | src/components/ProductForm.tsx:177 | the filter's k-th character is the input's character at the k-th passing position (order preserved, nothing skipped) |
| Text.KeepIdentityIff | src/components/ProductForm.tsx:177 | the filter leaves a string unchanged iff all its characters pass |
| Text.KeepEmptyIff | src/components/ProductForm.tsx:84 | the filter yields nothing iff no character passes |
| Text.KeepIdempotent | src/components/ProductForm.tsx:177 | filtering twice equals filtering once |
| Text.KeepCounts | src/components/ProductForm.tsx:177 | a passing character keeps its number of occurrences; others vanish |
| ImageUpload.HandleDrag | src/components/ImageUpload.tsx:15-23 | `dragenter`/`dragover` raise the hover flag, `dragleave` lowers it, any other type changes nothing |
| ImageUpload.DragFlagFollowsLastDecisive | src/components/ImageUpload.tsx:15-33 | after any run of drag and drop events the hover flag equals what the last enter/over/leave/drop set, or its start value if none |
| ImageUpload.HandleFile | src/components/ImageUpload.tsx:41-52 | a read is started exactly for a file whose MIME type starts with `image/`; nothing is reported yet |
| ImageUpload.ReadLoaded | src/components/ImageUpload.tsx:44-49 | a completed read reports the file, with its data URL as the preview and no URL |
| ImageUpload.HandleDrop | src/components/ImageUpload.tsx:25-33 | a drop lowers the hover flag, reports nothing at once, and passes the first dropped file, if any, to the file gate |
| ImageUpload.HandleFileInput | src/components/ImageUpload.tsx:35-39 | the first chosen file, if any, goes to the file gate; nothing is reported at once; widget state unchanged |
| ImageUpload.ReadsOnlyImages | src/components/ImageUpload.tsx:25-52 | a drop or a file choice starts at most one read, of the first file and only if it is an image |
| ImageUpload.HandleUrlSubmit | src/components/ImageUpload.tsx:54-63 | a URL of only whitespace emits nothing and changes nothing; otherwise one image with url = preview = the trimmed URL and no file, then the box is emptied and closed |
| ImageUpload.UrlSubmitTrims | src/components/ImageUpload.tsx:55-59 | the reported URL is the typed text less the surrounding whitespace, bounded by visible characters |
| ImageUpload.UrlResubmitStable | src/components/ImageUpload.tsx:55-59 | submitting the reported URL again reports the same image |
| ImageUpload.HandleUrlKeyPress | src/components/ImageUpload.tsx:154 | Enter submits the URL; other keys do nothing |
| ImageUpload.HandleRemoveImage | src/components/ImageUpload.tsx:65-70 | removal reports `null` exactly once |
| ImageUpload.OpenUrlInput | src/components/ImageUpload.tsx:140 | the URL box opens; the typed text and hover flag are kept |
| ImageUpload.ChangeUrl | src/components/ImageUpload.tsx:151 | typing sets the URL text only |
| ImageUpload.CancelUrlInput | src/components/ImageUpload.tsx:165-168 | Cancel closes the URL box and empties the text |
| ImageUpload.EmissionsWellFormed | src/components/ImageUpload.tsx:44-70 | every image reported by a URL submit, by Enter or by a completed read has at most one of file and url, and a URL image is its own preview; removal reports only `null` |
| ProductForm.FormatPrice | src/components/ProductForm.tsx:176-179 | the filtered price contains only digits and `.` and is no longer than the input |
| ProductForm.FormatPriceSelects | src/components/ProductForm.tsx:177 | the filtered price is the input's digits and points in order, all of them |
| ProductForm.FormatPriceCounts | src/components/ProductForm.tsx:177 | each digit or point occurs as often as in the input; nothing else occurs |
| ProductForm.FormatPriceIdempotent | src/components/ProductForm.tsx:176-179 | filtering is idempotent, and a price is left unchanged iff it is only digits and points |
| ProductForm.Hashtag | src/components/ProductForm.tsx:84 | the hashtag has no whitespace, and is empty iff the name is all whitespace |
| ProductForm.HashtagSelects | src/components/ProductForm.tsx:84 | the hashtag keeps every visible character of the name, in order and with the same counts |
| ProductForm.HashtagIgnoresTrim | src/components/ProductForm.tsx:84 | surrounding whitespace does not change the hashtag |
| ProductForm.HashtagIgnoresTrimStart | src/components/ProductForm.tsx:84 | leading whitespace does not change the hashtag |
| ProductForm.HashtagIgnoresTrimEnd | src/components/ProductForm.tsx:84 | trailing whitespace does not change the hashtag |
| ProductForm.HashtagJoinsWords | src/components/ProductForm.tsx:94 | words separated by whitespace are joined in the hashtag |
| ProductForm.FillEmbeds | src/components/ProductForm.tsx:76-94 | a filled caption template contains the name, the price and `#` plus the hashtag, and has a visible character whenever its opening text does |
| ProductForm.BuildCaptions | src/components/ProductForm.tsx:76-94 | both captions built from a form mention its name, its price and `#` plus the hashtag, and each has a visible character |
| ProductForm.CanGenerateExactly | src/components/ProductForm.tsx:181 | `canGenerate` holds iff the stage is input and name and price each have a visible character |
| ProductForm.CanSendExactly | src/components/ProductForm.tsx:182 | `canSend` holds iff the stage is captions, no send is in flight, and each caption has a visible character |
| ProductForm.CanGenerate | src/components/ProductForm.tsx:181 | `canGenerate`: the input stage and both trimmed fields non-empty; characterised by `ProductForm.CanGenerateExactly` |
| ProductForm.CanSend | src/components/ProductForm.tsx:182 | `canSend`: the captions stage, both trimmed captions non-empty and no send in flight; characterised by `ProductForm.CanSendExactly` |
| ProductForm.InputChange | src/components/ProductForm.tsx:44-49 | editing a field sets that field only; everything else is unchanged |
| ProductForm.ImageChange | src/components/ProductForm.tsx:51-56 | the image callback sets the image only |
| ProductForm.GenerateSubmit | src/components/ProductForm.tsx:58-69 | a name or price that is all whitespace raises the error notice and changes nothing else; otherwise the busy flag rises and the form is captured |
| ProductForm.GenerateResolve | src/components/ProductForm.tsx:73-115 | completion fills both captions with the submitted name, price and hashtag; the stage becomes captions; a success notice; the busy flag drops; the draft is kept |
| ProductForm.GenerateReject | src/components/ProductForm.tsx:107-115 | a failed generation raises the error notice, returns to input and drops the busy flag; draft and captions are kept |
| ProductForm.SendStart | src/components/ProductForm.tsx:118-119 | starting a send only raises the sending flag |
| ProductForm.SendResolve | src/components/ProductForm.tsx:123-145 | completion goes to the complete stage with a success notice and the sending flag down; nothing else changes |
| ProductForm.SendReject | src/components/ProductForm.tsx:137-144 | a failed send raises the error notice and drops the flag; the stage is kept |
| ProductForm.ClearForm | src/components/ProductForm.tsx:147-158 | clear empties name, price, image and both captions and returns to input from any state; flags, expansion and notice unchanged |
| ProductForm.CaptionChange | src/components/ProductForm.tsx:160-165 | editing a caption sets that caption only |
| ProductForm.BackToForm | src/components/ProductForm.tsx:167-170 | back returns to input and collapses the captions, keeping draft and captions |
| ProductForm.ToggleExpansion | src/components/ProductForm.tsx:172-174 | the toggled caption ends expanded iff it was not; the other caption is never left expanded |
| ProductForm.DismissNotice | src/components/ProductForm.tsx:375 | dismissal clears the notice only |
| ProductForm.ToggleTwice | src/components/ProductForm.tsx:172-174 | toggling a caption twice restores the state iff the other caption was not the expanded one; otherwise it ends collapsed |
| ProductForm.EditsWhileGeneratingIgnored | src/components/ProductForm.tsx:58-99 | edits made while a generation is pending do not change the captions it produces |
| ProductForm.ClearIdempotent | src/components/ProductForm.tsx:147-158 | clearing twice equals clearing once |
| ProductForm.ClearDisablesGenerate | src/components/ProductForm.tsx:181-182 | after a clear neither generate nor send is possible |
| Workflow.InitialInv | src/components/ProductForm.tsx:26-42 | the initial page, with no read pending, satisfies the invariant |
| Workflow.Enabled | src/components/ProductForm.tsx:193-367 | each event needs its control rendered and enabled: name, price, Clear (disabled while generating) and Generate (disabled unless `canGenerate` and not generating) in the input stage; the widget's URL box, file input and drop zone while there is no image, its remove button while there is one; caption toggles in the captions stage, an editor only while its caption is expanded, Send (disabled unless `canSend`) and Back (disabled while sending); the notification while one is set; completions while their operation, timer or read is pending; the browser's form validation is not modelled |
| Workflow.Step | src/components/ProductForm.tsx:200-360 | each event runs the handler its control is wired to: the price input through the price filter, the widget's handlers through the image callback, the auto-reset timer through the clear handler; pending reads change only on file events |
| Workflow.ControlsByStage | src/components/ProductForm.tsx:193-362 | on an invariant page the complete stage allows only the auto-reset, the notification and a late read; the captions stage only caption, Send, Back, send-completion, notification and read events; the input stage none of the caption, Send, Back or reset events |
| Workflow.PriceFieldFilters | src/components/ProductForm.tsx:221 | typing in the price field stores the filtered text, which holds only digits and points, and changes nothing else |
| Workflow.AutoResetClears | src/components/ProductForm.tsx:133-135 | the auto-reset does exactly what Clear does: empty form and captions, input stage, pending reads kept |
| Workflow.StepPreservesInv | src/components/ProductForm.tsx:44-174 | every event the page allows keeps the invariant: no `sending` stage, generation pending only in input, send only in captions, price only digits and points, draft and submitted images well formed, only image files read |
| Workflow.RunPreservesInv | src/components/ProductForm.tsx:44-174 | every allowed run of events keeps the invariant |
| Workflow.ReachableStates | src/components/ProductForm.tsx:23-174 | from the initial page the `sending` stage is never reached, generation and send are never pending together, the price holds only digits and points, the draft's image is well formed, and only image files are read |
| Workflow.Emit | src/components/ProductForm.tsx:51-56 | a series of image callback calls leaves the draft with the image of the last call and changes nothing else |
| Workflow.UrlReachesForm | src/components/ImageUpload.tsx:54-63 | a submitted URL reaches the draft trimmed, as url and preview, or not at all when it has no visible character |
| Workflow.RemoveEmptiesImage | src/components/ImageUpload.tsx:65-70 | removal empties the draft's image and changes nothing else |
| Workflow.FileChoiceStartsRead | src/components/ImageUpload.tsx:25-52 | a file choice or drop leaves the form as it is and adds a pending read exactly when the first file is an image |
| Workflow.ReadCompletesInAnyStage | src/components/ImageUpload.tsx:43-50 | a pending read can complete in any stage; it sets the draft's image to the file and its data URL, changes nothing else, and keeps the invariant |
| Workflow.LateImageAfterGeneration | src/components/ImageUpload.tsx:43-50 | an image dropped while captions are generating can arrive after the captions stage is reached, and it then sets the draft's image there |
| Workflow.SubmitEnabledExactly | src/components/ProductForm.tsx:237 | the Generate button is enabled iff the stage is input, nothing is generating, and name and price have visible characters |
| Workflow.SubmitEnabledStarts | src/components/ProductForm.tsx:58-69 | an enabled Generate button never meets the validation error |
| Workflow.GenerateCycle | src/components/ProductForm.tsx:58-116 | in the input stage with a visible name and price and no generation pending, Generate is enabled; completion is then pending and leads to captions that mention name, price and hashtag, a success notice, nothing busy, Send enabled, and pending file reads untouched |
| Workflow.SendCycle | src/components/ProductForm.tsx:118-158 | from an enabled Send, the send, its completion and the auto-reset are each enabled, and the end state is the clear of the complete state: empty draft and captions, input stage, success notice, pending file reads untouched |
| Workflow.BackKeepsWork | src/components/ProductForm.tsx:167-170 | Back, when enabled, returns to input with draft and captions kept and nothing busy |
| Workflow.TypeAndGenerate | src/components/ProductForm.tsx:44-116 | typing a visible name and price and generating is enabled step by step and yields captions with name, filtered price and hashtag, and Send enabled |
| Workflow.RedShoesExample | src/components/ProductForm.tsx:76-94 | "Red Shoes" at "15000" yields captions containing both and "#RedShoes"; sending them ends with an empty form in the input stage |

## Left out

- Workflow.Enabled: HTML constraint validation of the generation form is not modelled, so `SubmitForm` is allowed in some pages where the browser blocks the submission. The widget's URL box is an `<input type="url">` inside that form. While it is open and holds text that is not an absolute URL, Generate (or Enter in a field) fails validation, and `handleGenerateCaptions` never runs. The page model keeps no URL-box text. The `required` attribute on the name and price adds nothing, because `canGenerate` already demands a visible character in each. The same caveat applies to `Workflow.GenerateCycle`, `Workflow.TypeAndGenerate` and `Workflow.RedShoesExample`, which state that Generate is enabled. The invariant lemmas are unaffected: they hold for a superset of the page's runs.

- Rendering is not modelled: JSX, CSS classes, icons, and the image `onError` placeholder in `src/components/ImageUpload.tsx`. Only the conditional rendering and `disabled` attributes that decide which events can happen are kept, in `Workflow.Enabled`.
- The emoji are left out, as are the exact mis-encoded accented letters of the source literals. This covers the emoji that open the caption lines and the trailing check mark of the send-success notice (`SentMessage`). The templates and messages keep the words, in plain Unicode.
- Time is not modelled: the 3000 ms, 2500 ms and 2000 ms delays are events. The notification's 5-second auto-hide and its cleanup (`src/components/NotificationToast.tsx`) are modelled only as the dismiss event it ends in. Its severity-to-style mapping is presentation.
- `FileReader`'s encoding is not modelled. Its data-URL result is the opaque `dataUrl` parameter of the `FileLoaded` event, which fires at most once per started read. A failed read (`onerror`, no callback) is a read whose `FileLoaded` never comes.
- React batching of state updates is not modelled: each handler's `setState` calls take effect together, as one transition.
- Failure paths: the `catch` branches are modelled by the `GenerationFailed` and `SendFailed` events. The simulated delays in the source never reject, so those branches do not occur in it.
- `handleRemoveImage` resetting the file input's value is not modelled. The file input is rendered only while there is no image, and the remove button only while there is one, so the ref it tests is empty when it runs.
- `handleInputChange` accepts any key of the form type, `image` included. Only the two text fields it is called with are modelled.
- The `accept="image/*"` hint of the file input is a browser-side filter and is not modelled; the MIME gate in `handleFile` is.
- Header, footer, `src/App.tsx` and the build configuration hold no logic and are not part of this model.

=== FILE: image_upload.dfy ===
/** The image attachment widget: a drop zone and hidden file input, a URL entry
    box, and a remove button. Each event handler of the drop zone, file input,
    URL box and remove button that reaches the parent is a pure function from the
    widget's local state to its next state, the calls it makes to the
    `onImageChange` callback before it returns, in order (`Some(image)` for an
    image, `None` for `null`), and the file reads it starts; the handlers that
    only touch the widget's own state return the next state alone.

    Reading a file with `FileReader` is asynchronous: the handler only starts the
    read, and the `onload` callback reports the image later, as a separate event
    (ReadLoaded), whose data-URL result is an opaque string passed in as
    `dataUrl`. */
module ImageUpload {
  import opened Optional
  import opened Text

  /** A browser `File`: only its MIME type matters to the widget. */
  datatype File = File(name: string, mimeType: string)

  /** The image reference handed to the parent: a local file with its data-URL
      preview, or a remote URL that is its own preview. */
  datatype ImageData = ImageData(file: Option<File>, url: Option<string>, preview: string)

  /** The widget's own state: whether a drag hovers over the drop zone, whether
      the URL entry box is open, and the URL typed so far. */
  datatype Widget = Widget(dragActive: bool, showUrlInput: bool, urlValue: string)

  /** A handler's result: the next widget state, the callback calls it made
      before returning, and the files whose reads it started. */
  datatype Reaction = Reaction(widget: Widget, emitted: seq<Option<ImageData>>, started: seq<File>)

  const InitialWidget := Widget(false, false, "")

  const ImageMimePrefix := "image/"

  /** What the parent may receive: at most one of file and url is set, and a URL
      is its own preview. */
  predicate WellFormed(image: ImageData) {
    && !(image.file.Some? && image.url.Some?)
    && (image.url.Some? ==> image.url.value == image.preview)
  }

  /** The drag handler shared by dragenter, dragover and dragleave. */
  function HandleDrag(w: Widget, eventType: string): (r: Widget)
    ensures eventType == "dragenter" || eventType == "dragover" ==> r.dragActive
    ensures eventType == "dragleave" ==> !r.dragActive
    ensures eventType !in {"dragenter", "dragover", "dragleave"} ==> r == w
    ensures r == w.(dragActive := r.dragActive)
  {
    if eventType == "dragenter" || eventType == "dragover" then w.(dragActive := true)
    else if eventType == "dragleave" then w.(dragActive := false)
    else w
  }

  /** The file gate: a read is started exactly for a file whose MIME type starts
      with `image/`; nothing is reported yet. */
  function HandleFile(file: File): (r: seq<File>)
    ensures StartsWith(file.mimeType, ImageMimePrefix) <==> r == [file]
    ensures !StartsWith(file.mimeType, ImageMimePrefix) ==> r == []
  {
    if StartsWith(file.mimeType, ImageMimePrefix) then [file] else []
  }

  /** The reader's `onload`: the file is reported with its data URL as the preview
      and no URL. */
  function ReadLoaded(file: File, dataUrl: string): (r: ImageData)
    ensures r.file == Some(file) && r.url == None && r.preview == dataUrl
  {
    ImageData(Some(file), None, dataUrl)
  }

  /** A drop clears the hover flag and hands the first dropped file, if any, to the
      file gate; nothing is reported before the read completes. */
  function HandleDrop(w: Widget, files: seq<File>): (r: Reaction)
    ensures r.widget == w.(dragActive := false) && r.emitted == []
    ensures files == [] ==> r.started == []
    ensures files != [] ==> r.started == HandleFile(files[0])
  {
    Reaction(w.(dragActive := false), [], if files != [] then HandleFile(files[0]) else [])
  }

  /** The hidden file input's change handler: the first chosen file, if any, goes
      to the file gate; the widget state is untouched. */
  function HandleFileInput(w: Widget, files: seq<File>): (r: Reaction)
    ensures r.widget == w && r.emitted == []
    ensures files == [] ==> r.started == []
    ensures files != [] ==> r.started == HandleFile(files[0])
  {
    Reaction(w, [], if files != [] then HandleFile(files[0]) else [])
  }

  /** Whatever file a drop or a file choice starts reading is the first file
      given, and an image by its MIME type; at most one read is started. */
  lemma ReadsOnlyImages(w: Widget, files: seq<File>)
    ensures |HandleDrop(w, files).started| <= 1 && |HandleFileInput(w, files).started| <= 1
    ensures forall f :: f in HandleDrop(w, files).started ==> f == files[0] && StartsWith(f.mimeType, ImageMimePrefix)
    ensures forall f :: f in HandleFileInput(w, files).started ==> f == files[0] && StartsWith(f.mimeType, ImageMimePrefix)
  {
  }

  /** URL submission. A URL with no visible character is ignored and nothing
      changes; otherwise the trimmed URL is reported as both url and preview, and
      the entry box is emptied and closed. */
  function HandleUrlSubmit(w: Widget): (r: Reaction)
    ensures AllWhitespace(w.urlValue) ==> r == Reaction(w, [], [])
    ensures !AllWhitespace(w.urlValue) ==>
      && r.widget == w.(urlValue := "", showUrlInput := false) && r.started == []
      && r.emitted == [Some(ImageData(None, Some(Trim(w.urlValue)), Trim(w.urlValue)))]
      && Trim(w.urlValue) != []
  {
    var url := Trim(w.urlValue);
    TrimEmptyIff(w.urlValue);
    if url != [] then
      Reaction(w.(urlValue := "", showUrlInput := false), [Some(ImageData(None, Some(url), url))], [])
    else
      Reaction(w, [], [])
  }

  /** The submitted URL is the typed text less surrounding whitespace, and nothing
      else: `url` is an infix of the typed text bounded by whitespace on both sides. */
  lemma UrlSubmitTrims(w: Widget)
    requires !AllWhitespace(w.urlValue)
    ensures exists i, j ::
      && 0 <= i < j <= |w.urlValue|
      && HandleUrlSubmit(w).emitted == [Some(ImageData(None, Some(w.urlValue[i..j]), w.urlValue[i..j]))]
      && AllWhitespace(w.urlValue[..i]) && AllWhitespace(w.urlValue[j..])
      && !IsWhitespace(w.urlValue[i]) && !IsWhitespace(w.urlValue[j - 1])
  {
    var u := w.urlValue;
    var i, j := TrimIsInfix(u);
    var r := HandleUrlSubmit(w);
    assert r.emitted == [Some(ImageData(None, Some(Trim(u)), Trim(u)))];
    assert Trim(u) == u[i..j] && i < j;
    assert r.emitted == [Some(ImageData(None, Some(u[i..j]), u[i..j]))];
  }

  /** Resubmitting the URL the widget just reported reports the same image again. */
  lemma UrlResubmitStable(w: Widget)
    requires !AllWhitespace(w.urlValue)
    ensures var url := HandleUrlSubmit(w).emitted[0].value.preview;
            HandleUrlSubmit(w.(urlValue := url)).emitted == HandleUrlSubmit(w).emitted
  {
    TrimIdempotent(w.urlValue);
    TrimEmptyIff(Trim(w.urlValue));
  }

  /** The URL box reacts to Enter by submitting and ignores every other key. */
  function HandleUrlKeyPress(w: Widget, key: string): (r: Reaction)
    ensures key != "Enter" ==> r == Reaction(w, [], [])
    ensures key == "Enter" ==> r == HandleUrlSubmit(w)
  {
    if key == "Enter" then HandleUrlSubmit(w) else Reaction(w, [], [])
  }

  /** Removal reports `null` exactly once and leaves the widget state alone. The
      file input's value reset is not modelled: that input is only rendered while
      there is no image, and the remove button only while there is one. */
  function HandleRemoveImage(w: Widget): (r: Reaction)
    ensures r.emitted == [None]
    ensures r.widget == w && r.started == []
  {
    Reaction(w, [None], [])
  }

  /** The "Use Image URL" button opens the URL entry box. */
  function OpenUrlInput(w: Widget): (r: Widget)
    ensures r.showUrlInput && r.urlValue == w.urlValue && r.dragActive == w.dragActive
  {
    w.(showUrlInput := true)
  }

  /** Typing in the URL entry box. */
  function ChangeUrl(w: Widget, value: string): (r: Widget)
    ensures r.urlValue == value && r.showUrlInput == w.showUrlInput && r.dragActive == w.dragActive
  {
    w.(urlValue := value)
  }

  /** The Cancel button closes the URL entry box and forgets the typed URL. */
  function CancelUrlInput(w: Widget): (r: Widget)
    ensures !r.showUrlInput && r.urlValue == [] && r.dragActive == w.dragActive
  {
    w.(showUrlInput := false, urlValue := "")
  }

  /** Everything the widget ever reports is well formed. */
  lemma EmissionsWellFormed(w: Widget, file: File, dataUrl: string, key: string)
    ensures forall e :: e in HandleUrlSubmit(w).emitted && e.Some? ==> WellFormed(e.value)
    ensures forall e :: e in HandleUrlKeyPress(w, key).emitted && e.Some? ==> WellFormed(e.value)
    ensures forall e :: e in HandleRemoveImage(w).emitted ==> e.None?
    ensures WellFormed(ReadLoaded(file, dataUrl))
  {
  }

  /** The events the drop zone receives. */
  datatype ZoneEvent = Drag(eventType: string) | Drop(files: seq<File>)

  function ZoneStep(w: Widget, e: ZoneEvent): Widget {
    match e
    case Drag(t) => HandleDrag(w, t)
    case Drop(files) => HandleDrop(w, files).widget
  }

  function ZoneRun(w: Widget, events: seq<ZoneEvent>): Widget
    decreases |events|
  {
    if events == [] then w else ZoneRun(ZoneStep(w, events[0]), events[1..])
  }

  /** Whether an event decides the hover flag, and to which value. */
  predicate Decides(e: ZoneEvent) {
    e.Drop? || e.eventType in {"dragenter", "dragover", "dragleave"}
  }

  predicate Raises(e: ZoneEvent) {
    e.Drag? && e.eventType in {"dragenter", "dragover"}
  }

  /** The hover flag after a run of drop-zone events is decided by the last event
      that decides it at all (enter or over raise it, leave or drop lower it), and
      is the starting value when no event decides it. */
  lemma {:induction false} DragFlagFollowsLastDecisive(w: Widget, events: seq<ZoneEvent>)
    ensures var r := ZoneRun(w, events);
      && r.showUrlInput == w.showUrlInput && r.urlValue == w.urlValue
      && ((forall k :: 0 <= k < |events| ==> !Decides(events[k])) ==> r.dragActive == w.dragActive)
      && (forall k :: 0 <= k < |events| && Decides(events[k])
            && (forall l :: k < l < |events| ==> !Decides(events[l]))
            ==> r.dragActive == Raises(events[k]))
    decreases |events|
  {
    if events != [] {
      var w1 := ZoneStep(w, events[0]);
      var rest := events[1..];
      DragFlagFollowsLastDecisive(w1, rest);
      assert forall l :: 1 <= l < |events| ==> events[l] == rest[l - 1];
    }
  }
}

=== FILE: optional.dfy ===
/** The optional value the components pass around where the source uses `null`. */
module Optional {

  datatype Option<+T> = None | Some(value: T)
}

=== FILE: product_form.dfy ===
/** The product-post form: the form draft, the caption pair, the workflow stage,
    the busy flags, the expanded caption and the notification, with one pure
    function per event handler of the component. A handler does exactly what the
    component's handler does; which handlers the rendered page lets the user reach
    is stated separately, in module Workflow.

    The two simulated operations are split at their `await`: generation into
    GenerateSubmit (validation and `isGenerating := true`) and GenerateResolve (the
    continuation and `finally`), sending into SendStart and SendResolve. The
    `catch` branches are GenerateReject and SendReject. */
module ProductForm {
  import opened Optional
  import opened Text
  import opened ImageUpload

  datatype Stage = Input | Captions | Sending | Complete

  /** The text fields `handleInputChange` is called with. */
  datatype Field = ProductName | ProductPrice

  datatype Language = French | English

  datatype Severity = Success | Error

  datatype Notice = Notice(message: string, severity: Severity)

  datatype FormData = FormData(productName: string, productPrice: string, image: Option<ImageData>)

  datatype CaptionData = CaptionData(french: string, english: string)

  /** The component's state. `submitted` is the form as the pending generation
      call saw it when it was submitted: the handler's closure reads `formData`
      from the render it was created in, so edits made while it waits do not reach
      the captions. */
  datatype State = State(
    form: FormData,
    captions: CaptionData,
    stage: Stage,
    isGenerating: bool,
    isSending: bool,
    expanded: Option<Language>,
    notice: Option<Notice>,
    submitted: FormData)

  const EmptyForm := FormData("", "", None)
  const EmptyCaptions := CaptionData("", "")
  const Initial := State(EmptyForm, EmptyCaptions, Input, false, false, None, None, EmptyForm)

  const MissingFieldsMessage := "Please fill in all required fields"
  const GeneratedMessage := "Captions generated successfully! Review and edit as needed."
  const GenerateFailedMessage := "Failed to generate captions. Please try again."
  const SentMessage := "Posts sent successfully to all WhatsApp groups!"
  const SendFailedMessage := "Failed to send posts. Please try again."

  function Other(lang: Language): Language {
    match lang
    case French => English
    case English => French
  }

  // ---------------------------------------------------------------- text helpers

  predicate IsPriceChar(c: char) {
    '0' <= c <= '9' || c == '.'
  }

  /** A price made only of digits and points. */
  predicate PriceText(p: string) {
    forall i :: 0 <= i < |p| ==> IsPriceChar(p[i])
  }

  /** The price field's input filter: deletes every character other than the
      digits and the point. */
  function FormatPrice(value: string): (r: string)
    ensures PriceText(r)
    ensures |r| <= |value|
  {
    KeepPasses(value, IsPriceChar);
    Keep(value, IsPriceChar)
  }

  /** The filtered price is the input's digits and points, in order and all of
      them: its k-th character is the input's k-th allowed character. */
  lemma FormatPriceSelects(value: string)
    ensures |FormatPrice(value)| == |Positions(value, IsPriceChar)|
    ensures forall k :: 0 <= k < |FormatPrice(value)| ==>
      FormatPrice(value)[k] == value[Positions(value, IsPriceChar)[k]]
    ensures forall i :: 0 <= i < |value| && IsPriceChar(value[i]) ==> i in Positions(value, IsPriceChar)
  {
    KeepSelects(value, IsPriceChar);
  }

  /** Each digit and point keeps its number of occurrences; nothing else survives. */
  lemma FormatPriceCounts(value: string, c: char)
    ensures multiset(FormatPrice(value))[c] == if IsPriceChar(c) then multiset(value)[c] else 0
  {
    KeepCounts(value, IsPriceChar, c);
  }

  /** Filtering a price twice changes nothing more, and a price made only of digits
      and points is left as it is (and only such a price). */
  lemma FormatPriceIdempotent(value: string)
    ensures FormatPrice(FormatPrice(value)) == FormatPrice(value)
    ensures FormatPrice(value) == value <==> PriceText(value)
  {
    KeepIdempotent(value, IsPriceChar);
    KeepIdentityIff(value, IsPriceChar);
  }

  function NotWhitespace(c: char): bool {
    !IsWhitespace(c)
  }

  /** The hashtag body `name.replace(/\s+/g, '')`: the name with every whitespace
      character removed. */
  function Hashtag(name: string): (r: string)
    ensures forall i :: 0 <= i < |r| ==> !IsWhitespace(r[i])
    ensures r == [] <==> AllWhitespace(name)
  {
    KeepEmptyIff(name, NotWhitespace);
    KeepPasses(name, NotWhitespace);
    Keep(name, NotWhitespace)
  }

  /** The hashtag keeps every visible character of the name, in order. */
  lemma HashtagSelects(name: string)
    ensures |Hashtag(name)| == |Positions(name, NotWhitespace)|
    ensures forall k :: 0 <= k < |Hashtag(name)| ==>
      Hashtag(name)[k] == name[Positions(name, NotWhitespace)[k]]
    ensures forall c :: !IsWhitespace(c) ==> multiset(Hashtag(name))[c] == multiset(name)[c]
  {
    KeepSelects(name, NotWhitespace);
    forall c | !IsWhitespace(c) ensures multiset(Hashtag(name))[c] == multiset(name)[c] {
      KeepCounts(name, NotWhitespace, c);
    }
  }

  /** Surrounding whitespace does not change the hashtag. */
  lemma HashtagIgnoresTrim(name: string)
    ensures Hashtag(Trim(name)) == Hashtag(name)
  {
    HashtagIgnoresTrimEnd(TrimStart(name));
    HashtagIgnoresTrimStart(name);
  }

  lemma {:induction false} HashtagIgnoresTrimStart(name: string)
    ensures Hashtag(TrimStart(name)) == Hashtag(name)
  {
    if name != [] && IsWhitespace(name[0]) {
      HashtagIgnoresTrimStart(name[1..]);
    }
  }

  lemma {:induction false} HashtagIgnoresTrimEnd(name: string)
    ensures Hashtag(TrimEnd(name)) == Hashtag(name)
  {
    if name != [] && IsWhitespace(name[|name| - 1]) {
      var n := |name| - 1;
      HashtagIgnoresTrimEnd(name[..n]);
      assert name == name[..n] + [name[n]];
      KeepAppend(name[..n], [name[n]], NotWhitespace);
    }
  }

  /** Words separated by whitespace join up in the hashtag. */
  lemma HashtagJoinsWords(a: string, gap: string, b: string)
    requires forall i :: 0 <= i < |a| ==> !IsWhitespace(a[i])
    requires forall i :: 0 <= i < |b| ==> !IsWhitespace(b[i])
    requires AllWhitespace(gap)
    ensures Hashtag(a + (gap + b)) == a + b
  {
    KeepAppend(a, gap + b, NotWhitespace);
    KeepAppend(gap, b, NotWhitespace);
    KeepEmptyIff(gap, NotWhitespace);
    KeepIdentityIff(a, NotWhitespace);
    KeepIdentityIff(b, NotWhitespace);
  }

  /** A caption template: literal text around the name, the price and the
      hashtag. The emoji that open the source's lines are left out. */
  datatype Template = Template(opening: string, afterName: string, afterPrice: string, closing: string)

  const FrenchTemplate := Template(
    "D\U{E9}couvrez ",
    " !\n\nPrix sp\U{E9}cial : ",
    " FCFA seulement !\n\nQualit\U{E9} premium garantie\nLivraison rapide disponible\nOffre limit\U{E9}e - Ne manquez pas cette opportunit\U{E9} !\n\n",
    " #OffreSpeciale #QualitePremium")

  const EnglishTemplate := Template(
    "Introducing ",
    "!\n\nSpecial price: Only ",
    " FCFA!\n\nPremium quality guaranteed\nFast delivery available\nLimited offer - Don't miss this opportunity!\n\n",
    " #SpecialOffer #PremiumQuality")

  function Fill(t: Template, name: string, price: string): string {
    t.opening + (name + (t.afterName + (price + (t.afterPrice + (("#" + Hashtag(name)) + t.closing)))))
  }

  /** A filled template mentions the name, the price and the `#`-prefixed hashtag,
      and it has a visible character whenever its opening does. */
  lemma FillEmbeds(t: Template, name: string, price: string)
    ensures Contains(Fill(t, name, price), name)
    ensures Contains(Fill(t, name, price), price)
    ensures Contains(Fill(t, name, price), "#" + Hashtag(name))
    ensures !AllWhitespace(t.opening) ==> !AllWhitespace(Fill(t, name, price))
  {
    var h := "#" + Hashtag(name);
    var tail := h + t.closing;
    ContainsPrefix(h, t.closing);
    ContainsInTail(t.afterPrice, tail, h);
    ContainsInTail(price, t.afterPrice + tail, h);
    ContainsPrefix(price, t.afterPrice + tail);
    var fromPrice := price + (t.afterPrice + tail);
    ContainsInTail(t.afterName, fromPrice, h);
    ContainsInTail(t.afterName, fromPrice, price);
    ContainsInTail(name, t.afterName + fromPrice, h);
    ContainsInTail(name, t.afterName + fromPrice, price);
    ContainsPrefix(name, t.afterName + fromPrice);
    var fromName := name + (t.afterName + fromPrice);
    ContainsInTail(t.opening, fromName, h);
    ContainsInTail(t.opening, fromName, price);
    ContainsInTail(t.opening, fromName, name);
    if !AllWhitespace(t.opening) {
      var i :| 0 <= i < |t.opening| && !IsWhitespace(t.opening[i]);
      assert Fill(t, name, price)[i] == t.opening[i];
    }
  }

  /** The two captions built from a form: each mentions the name, the price and
      the `#`-prefixed hashtag, and each has a visible character. */
  function BuildCaptions(form: FormData): (r: CaptionData)
    ensures Contains(r.french, form.productName) && Contains(r.english, form.productName)
    ensures Contains(r.french, form.productPrice) && Contains(r.english, form.productPrice)
    ensures Contains(r.french, "#" + Hashtag(form.productName))
    ensures Contains(r.english, "#" + Hashtag(form.productName))
    ensures !AllWhitespace(r.french) && !AllWhitespace(r.english)
  {
    FillEmbeds(FrenchTemplate, form.productName, form.productPrice);
    FillEmbeds(EnglishTemplate, form.productName, form.productPrice);
    assert !IsWhitespace(FrenchTemplate.opening[0]);
    assert !IsWhitespace(EnglishTemplate.opening[0]);
    CaptionData(
      Fill(FrenchTemplate, form.productName, form.productPrice),
      Fill(EnglishTemplate, form.productName, form.productPrice))
  }

  // ---------------------------------------------------------------- guards

  /** `canGenerate`: the truthiness of both trimmed fields and the input stage. */
  predicate CanGenerate(s: State) {
    Trim(s.form.productName) != [] && Trim(s.form.productPrice) != [] && s.stage == Input
  }

  /** `canSend`: the captions stage, both trimmed captions non-empty, no send in flight. */
  predicate CanSend(s: State) {
    s.stage == Captions && Trim(s.captions.french) != [] && Trim(s.captions.english) != [] && !s.isSending
  }

  /** Generation is possible exactly in the input stage with a visible character
      in both the name and the price. */
  lemma CanGenerateExactly(s: State)
    ensures CanGenerate(s) <==>
      && s.stage == Input
      && (exists i :: 0 <= i < |s.form.productName| && !IsWhitespace(s.form.productName[i]))
      && (exists i :: 0 <= i < |s.form.productPrice| && !IsWhitespace(s.form.productPrice[i]))
  {
    TrimEmptyIff(s.form.productName);
    TrimEmptyIff(s.form.productPrice);
  }

  /** Sending is possible exactly in the captions stage, with no send in flight and
      a visible character in each caption. */
  lemma CanSendExactly(s: State)
    ensures CanSend(s) <==>
      && s.stage == Captions
      && !s.isSending
      && (exists i :: 0 <= i < |s.captions.french| && !IsWhitespace(s.captions.french[i]))
      && (exists i :: 0 <= i < |s.captions.english| && !IsWhitespace(s.captions.english[i]))
  {
    TrimEmptyIff(s.captions.french);
    TrimEmptyIff(s.captions.english);
  }

  // ---------------------------------------------------------------- handlers

  /** `handleInputChange`: one text field of the draft takes the new value. */
  function InputChange(s: State, field: Field, value: string): (r: State)
    ensures field == ProductName ==> r.form.productName == value && r.form.productPrice == s.form.productPrice
    ensures field == ProductPrice ==> r.form.productPrice == value && r.form.productName == s.form.productName
    ensures r.form.image == s.form.image
    ensures r == s.(form := r.form)
  {
    match field
    case ProductName => s.(form := s.form.(productName := value))
    case ProductPrice => s.(form := s.form.(productPrice := value))
  }

  /** `handleImageChange`: the draft's image is replaced. */
  function ImageChange(s: State, image: Option<ImageData>): (r: State)
    ensures r.form.image == image
    ensures r.form.productName == s.form.productName && r.form.productPrice == s.form.productPrice
    ensures r == s.(form := r.form)
  {
    s.(form := s.form.(image := image))
  }

  /** `handleGenerateCaptions` up to its `await`. A name or price with no visible
      character raises an error notice and changes nothing else; otherwise the
      busy flag goes up and the current form is what the call will use. */
  function GenerateSubmit(s: State): (r: State)
    ensures AllWhitespace(s.form.productName) || AllWhitespace(s.form.productPrice) ==>
      r == s.(notice := Some(Notice(MissingFieldsMessage, Error)))
    ensures !AllWhitespace(s.form.productName) && !AllWhitespace(s.form.productPrice) ==>
      r == s.(isGenerating := true, submitted := s.form)
  {
    TrimEmptyIff(s.form.productName);
    TrimEmptyIff(s.form.productPrice);
    if Trim(s.form.productName) == [] || Trim(s.form.productPrice) == [] then
      s.(notice := Some(Notice(MissingFieldsMessage, Error)))
    else
      s.(isGenerating := true)
       .(submitted := s.form)
  }

  /** The continuation of a generation: both captions are filled from the
      submitted name and price, the stage becomes captions, a success notice is
      raised and the busy flag drops. The draft is left as it is. */
  function GenerateResolve(s: State): (r: State)
    ensures r.stage == Captions && !r.isGenerating
    ensures r.notice == Some(Notice(GeneratedMessage, Success))
    ensures var name, price := s.submitted.productName, s.submitted.productPrice;
      && Contains(r.captions.french, name) && Contains(r.captions.english, name)
      && Contains(r.captions.french, price) && Contains(r.captions.english, price)
      && Contains(r.captions.french, "#" + Hashtag(name))
      && Contains(r.captions.english, "#" + Hashtag(name))
    ensures !AllWhitespace(r.captions.french) && !AllWhitespace(r.captions.english)
    ensures r == s.(captions := r.captions, stage := Captions, isGenerating := false, notice := r.notice)
  {
    s.(captions := BuildCaptions(s.submitted),
       stage := Captions,
       notice := Some(Notice(GeneratedMessage, Success)),
       isGenerating := false)
  }

  /** The `catch` and `finally` of a generation: an error notice, back to the input
      stage, busy flag down; the draft and captions are untouched. */
  function GenerateReject(s: State): (r: State)
    ensures r.stage == Input && !r.isGenerating
    ensures r.notice == Some(Notice(GenerateFailedMessage, Error))
    ensures r.form == s.form && r.captions == s.captions
    ensures r == s.(stage := Input, isGenerating := false, notice := r.notice)
  {
    s.(notice := Some(Notice(GenerateFailedMessage, Error)), stage := Input, isGenerating := false)
  }

  /** `handleSendToGroups` up to its `await`: only the sending flag goes up. */
  function SendStart(s: State): (r: State)
    ensures r.isSending
    ensures r == s.(isSending := true)
  {
    s.(isSending := true)
  }

  /** The continuation of a send: a success notice, the complete stage, sending
      flag down. The auto-reset it schedules is the Workflow event ResetTimerFires. */
  function SendResolve(s: State): (r: State)
    ensures r.stage == Complete && !r.isSending
    ensures r.notice == Some(Notice(SentMessage, Success))
    ensures r == s.(stage := Complete, isSending := false, notice := r.notice)
  {
    s.(notice := Some(Notice(SentMessage, Success)), stage := Complete, isSending := false)
  }

  /** The `catch` and `finally` of a send: an error notice and the sending flag
      down, the stage unchanged. */
  function SendReject(s: State): (r: State)
    ensures !r.isSending && r.stage == s.stage
    ensures r.notice == Some(Notice(SendFailedMessage, Error))
    ensures r == s.(isSending := false, notice := r.notice)
  {
    s.(notice := Some(Notice(SendFailedMessage, Error)), isSending := false)
  }

  /** `handleClearForm`: empty draft, empty captions, input stage, from any state.
      The flags, the expanded caption and the notice are not touched. */
  function ClearForm(s: State): (r: State)
    ensures r.form.productName == [] && r.form.productPrice == [] && r.form.image == None
    ensures r.captions.french == [] && r.captions.english == []
    ensures r.stage == Input
    ensures r.isGenerating == s.isGenerating && r.isSending == s.isSending
    ensures r.expanded == s.expanded && r.notice == s.notice && r.submitted == s.submitted
  {
    s.(form := EmptyForm, captions := EmptyCaptions, stage := Input)
  }

  /** `handleCaptionChange`: one caption takes the new text, the other is kept. */
  function CaptionChange(s: State, lang: Language, value: string): (r: State)
    ensures lang == French ==> r.captions.french == value && r.captions.english == s.captions.english
    ensures lang == English ==> r.captions.english == value && r.captions.french == s.captions.french
    ensures r == s.(captions := r.captions)
  {
    match lang
    case French => s.(captions := s.captions.(french := value))
    case English => s.(captions := s.captions.(english := value))
  }

  /** `handleBackToForm`: the input stage with no caption expanded; the draft and
      the captions are kept. */
  function BackToForm(s: State): (r: State)
    ensures r.stage == Input && r.expanded == None
    ensures r.form == s.form && r.captions == s.captions
    ensures r == s.(stage := Input, expanded := None)
  {
    s.(stage := Input, expanded := None)
  }

  /** `toggleCaptionExpansion`: selecting the expanded caption collapses it, and
      selecting any other caption expands that one instead. */
  function ToggleExpansion(s: State, lang: Language): (r: State)
    ensures r.expanded == Some(lang) <==> s.expanded != Some(lang)
    ensures r.expanded != Some(Other(lang))
    ensures r == s.(expanded := r.expanded)
  {
    s.(expanded := if s.expanded == Some(lang) then None else Some(lang))
  }

  /** The notification's dismiss callback (its close button or its timer). */
  function DismissNotice(s: State): (r: State)
    ensures r.notice == None
    ensures r == s.(notice := None)
  {
    s.(notice := None)
  }

  // ---------------------------------------------------------------- properties

  /** Toggling the same caption twice restores the state exactly when the other
      caption was not the expanded one; from the other caption it ends collapsed. */
  lemma ToggleTwice(s: State, lang: Language)
    ensures ToggleExpansion(ToggleExpansion(s, lang), lang) == s <==> s.expanded != Some(Other(lang))
    ensures s.expanded == Some(Other(lang)) ==> ToggleExpansion(ToggleExpansion(s, lang), lang).expanded == None
  {
    if s.expanded.Some? {
      assert s.expanded.value == lang || s.expanded.value == Other(lang);
    }
  }

  /** Edits made while a generation is pending do not reach its captions: they are
      built from the form as it was when the generation was submitted. */
  lemma EditsWhileGeneratingIgnored(s: State, field: Field, value: string, image: Option<ImageData>)
    requires !AllWhitespace(s.form.productName) && !AllWhitespace(s.form.productPrice)
    ensures var pending := GenerateSubmit(s);
      && GenerateResolve(InputChange(pending, field, value)).captions == GenerateResolve(pending).captions
      && GenerateResolve(ImageChange(pending, image)).captions == GenerateResolve(pending).captions
  {
  }

  /** Clearing twice is clearing once. */
  lemma ClearIdempotent(s: State)
    ensures ClearForm(ClearForm(s)) == ClearForm(s)
  {
  }

  /** After a clear nothing can be generated until a name and price are entered. */
  lemma ClearDisablesGenerate(s: State)
    ensures !CanGenerate(ClearForm(s))
    ensures !CanSend(ClearForm(s))
  {
  }
}

=== FILE: text.dfy ===
/** The JavaScript string operations the form components rely on:
    `String.prototype.trim`, the `\s` character class, `startsWith`, and a global
    `replace` with a character class, which removes every character of that class
    (a filter). Strings are sequences of Unicode scalar values. Every character
    these operations test for is in the Basic Multilingual Plane, so a character
    outside it, which JavaScript holds as a surrogate pair, is kept or dropped
    whole, as any other character that fails or passes the test. A lone
    surrogate, which a JavaScript string may hold, has no counterpart here. */
module Text {

  /** ECMAScript WhiteSpace and LineTerminator code points: exactly the
      characters `trim` strips and `\s` matches. */
  predicate IsWhitespace(c: char) {
    || c == '\t' || c == '\n' || c == '\U{000B}' || c == '\U{000C}' || c == '\r'
    || c == ' ' || c == '\U{00A0}' || c == '\U{1680}'
    || ('\U{2000}' <= c <= '\U{200A}')
    || c == '\U{2028}' || c == '\U{2029}' || c == '\U{202F}' || c == '\U{205F}'
    || c == '\U{3000}' || c == '\U{FEFF}'
  }

  predicate AllWhitespace(s: string) {
    forall i :: 0 <= i < |s| ==> IsWhitespace(s[i])
  }

  /** Drops the leading whitespace: the result is a suffix of `s`, what was dropped
      is whitespace, and the result does not start with whitespace. */
  function TrimStart(s: string): (r: string)
    ensures |r| <= |s| && r == s[|s| - |r|..]
    ensures AllWhitespace(s[..|s| - |r|])
    ensures r == [] || !IsWhitespace(r[0])
  {
    if s != [] && IsWhitespace(s[0]) then
      var r := TrimStart(s[1..]);
      assert s[..|s| - |r|] == [s[0]] + s[1..][..|s| - 1 - |r|];
      r
    else
      s
  }

  /** Drops the trailing whitespace: the result is a prefix of `s`, what was dropped
      is whitespace, and the result does not end with whitespace. */
  function TrimEnd(s: string): (r: string)
    ensures |r| <= |s| && r == s[..|r|]
    ensures AllWhitespace(s[|r|..])
    ensures r == [] || !IsWhitespace(r[|r| - 1])
  {
    if s != [] && IsWhitespace(s[|s| - 1]) then
      var r := TrimEnd(s[..|s| - 1]);
      assert s[|r|..] == s[..|s| - 1][|r|..] + [s[|s| - 1]];
      r
    else
      s
  }

  /** `String.prototype.trim`: neither end of the result is whitespace. */
  function Trim(s: string): (r: string)
    ensures r == [] || (!IsWhitespace(r[0]) && !IsWhitespace(r[|r| - 1]))
  {
    TrimEnd(TrimStart(s))
  }

  /** Trim removes exactly a whitespace prefix `s[..i]` and a whitespace suffix
      `s[j..]`: the result is the infix `s[i..j]` between them. */
  lemma TrimIsInfix(s: string) returns (i: nat, j: nat)
    ensures i <= j <= |s| && Trim(s) == s[i..j]
    ensures AllWhitespace(s[..i]) && AllWhitespace(s[j..])
    ensures i < j ==> !IsWhitespace(s[i]) && !IsWhitespace(s[j - 1])
  {
    var t := TrimStart(s);
    i := |s| - |t|;
    j := i + |Trim(s)|;
    InfixOfSuffix(s, i, Trim(s));
    if i < j {
      assert Trim(s)[0] == s[i] && Trim(s)[j - i - 1] == s[j - 1];
    }
  }

  /** A whitespace-bounded prefix of the suffix `s[i..]` is the infix of `s`
      starting at `i`, followed by whitespace to the end. */
  lemma InfixOfSuffix(s: string, i: nat, r: string)
    requires i <= |s| && |r| <= |s| - i
    requires r == s[i..][..|r|] && AllWhitespace(s[i..][|r|..])
    ensures r == s[i..i + |r|] && AllWhitespace(s[i + |r|..])
  {
    assert s[i..][|r|..] == s[i + |r|..];
  }

  /** A trimmed string is empty exactly when the whole input is whitespace; so the
      source's truthiness tests `x.trim()` ask whether `x` has a visible character. */
  lemma TrimEmptyIff(s: string)
    ensures Trim(s) == [] <==> AllWhitespace(s)
  {
    if Trim(s) == [] {
      var t := TrimStart(s);
      assert s == s[..|s| - |t|] + t;
    }
  }

  /** Trimming twice is trimming once. */
  lemma TrimIdempotent(s: string)
    ensures Trim(Trim(s)) == Trim(s)
  {
    var r := Trim(s);
    if r != [] {
      assert TrimStart(r) == r;
      assert TrimEnd(r) == r;
    }
  }

  /** `s.startsWith(prefix)`. */
  predicate StartsWith(s: string, prefix: string) {
    |prefix| <= |s| && s[..|prefix|] == prefix
  }

  /** `needle` occurs as a contiguous piece of `hay` (`hay.includes(needle)`). */
  ghost predicate Contains(hay: string, needle: string) {
    exists k :: OccursAt(hay, needle, k)
  }

  ghost predicate OccursAt(hay: string, needle: string, k: int) {
    0 <= k <= |hay| - |needle| && hay[k..k + |needle|] == needle
  }

  lemma ContainsPrefix(b: string, c: string)
    ensures Contains(b + c, b)
  {
    assert OccursAt(b + c, b, 0);
  }

  lemma ContainsInTail(a: string, x: string, needle: string)
    requires Contains(x, needle)
    ensures Contains(a + x, needle)
  {
    var k :| OccursAt(x, needle, k);
    assert (a + x)[|a| + k..|a| + k + |needle|] == x[k..k + |needle|];
    assert OccursAt(a + x, needle, |a| + k);
  }

  /** A global `replace` whose pattern matches single characters outside a class:
      the characters of `s` for which `keep` holds, in their original order. */
  function Keep(s: string, keep: char -> bool): (r: string)
    ensures |r| <= |s|
  {
    if s == [] then []
    else if keep(s[0]) then [s[0]] + Keep(s[1..], keep)
    else Keep(s[1..], keep)
  }

  /** Every character of the filter result passes. */
  lemma {:induction false} KeepPasses(s: string, keep: char -> bool)
    ensures forall i :: 0 <= i < |Keep(s, keep)| ==> keep(Keep(s, keep)[i])
  {
    if s != [] {
      KeepPasses(s[1..], keep);
    }
  }

  /** Filtering distributes over concatenation. */
  lemma {:induction false} KeepAppend(a: string, b: string, keep: char -> bool)
    ensures Keep(a + b, keep) == Keep(a, keep) + Keep(b, keep)
  {
    if a == [] {
      assert a + b == b;
    } else {
      assert (a + b)[1..] == a[1..] + b;
      KeepAppend(a[1..], b, keep);
    }
  }

  /** The indices of `s` whose characters satisfy `keep`, in increasing order. */
  ghost function Positions(s: string, keep: char -> bool): (idx: seq<nat>)
    ensures forall k :: 0 <= k < |idx| ==> idx[k] < |s| && keep(s[idx[k]])
    ensures forall k, l :: 0 <= k < l < |idx| ==> idx[k] < idx[l]
    ensures forall i :: 0 <= i < |s| && keep(s[i]) ==> i in idx
  {
    if s == [] then []
    else
      var n := |s| - 1;
      var front := Positions(s[..n], keep);
      assert forall i :: 0 <= i < n ==> s[..n][i] == s[i];
      front + (if keep(s[n]) then [n] else [])
  }

  /** The filter result is precisely the characters of `s` at the positions that
      satisfy `keep`, in order: an order-preserving selection that misses none. */
  lemma {:induction false} KeepSelects(s: string, keep: char -> bool)
    ensures |Keep(s, keep)| == |Positions(s, keep)|
    ensures forall k :: 0 <= k < |Keep(s, keep)| ==> Keep(s, keep)[k] == s[Positions(s, keep)[k]]
  {
    if s != [] {
      var n := |s| - 1;
      KeepSelects(s[..n], keep);
      assert s == s[..n] + [s[n]];
      KeepAppend(s[..n], [s[n]], keep);
      assert Keep([s[n]], keep) == if keep(s[n]) then [s[n]] else [];
    }
  }

  /** Filtering leaves a string unchanged exactly when every character passes. */
  lemma {:induction false} KeepIdentityIff(s: string, keep: char -> bool)
    ensures Keep(s, keep) == s <==> forall i :: 0 <= i < |s| ==> keep(s[i])
  {
    KeepPasses(s, keep);
    if s != [] && forall i :: 0 <= i < |s| ==> keep(s[i]) {
      KeepIdentityIff(s[1..], keep);
      assert forall i :: 0 <= i < |s[1..]| ==> keep(s[1..][i]) by {
        forall i | 0 <= i < |s[1..]| ensures keep(s[1..][i]) {
          assert s[1..][i] == s[i + 1];
        }
      }
    }
  }

  /** Filtering yields nothing exactly when no character passes. */
  lemma {:induction false} KeepEmptyIff(s: string, keep: char -> bool)
    ensures Keep(s, keep) == [] <==> forall i :: 0 <= i < |s| ==> !keep(s[i])
  {
    if s != [] {
      KeepEmptyIff(s[1..], keep);
      assert forall i :: 0 <= i < |s[1..]| ==> s[1..][i] == s[i + 1];
    }
  }

  /** Filtering is idempotent. */
  lemma KeepIdempotent(s: string, keep: char -> bool)
    ensures Keep(Keep(s, keep), keep) == Keep(s, keep)
  {
    KeepPasses(s, keep);
    KeepIdentityIff(Keep(s, keep), keep);
  }

  /** Each character that passes occurs as often in the result as in `s`; the others
      do not occur at all. */
  lemma {:induction false} KeepCounts(s: string, keep: char -> bool, c: char)
    ensures multiset(Keep(s, keep))[c] == if keep(c) then multiset(s)[c] else 0
  {
    if s != [] {
      KeepCounts(s[1..], keep, c);
      assert s == [s[0]] + s[1..];
      assert multiset(s) == multiset([s[0]]) + multiset(s[1..]);
    }
  }
}

=== FILE: workflow.dfy ===
/** The form as the rendered page drives it. Each user action, each settled
    `await`, each timer and each completed file read is an event; an event is
    enabled when the page renders the control behind it and does not disable it,
    or when the operation, timer or read it completes is pending. The browser's
    constraint validation of the form (an open URL box holding text that is not
    an absolute URL blocks submission) is not modelled, so Generate is allowed in
    some pages where the browser would refuse the submission. Runs
    from the initial page keep an invariant that rules out, among other things,
    ever reaching the `sending` stage, which no handler assigns, and an image the
    widget could not have reported. */
module Workflow {
  import opened Optional
  import opened Text
  import ImageUpload
  import opened ProductForm

  /** The page: the form component's state and the file reads the image widget
      has started whose `onload` has not run yet. A read outlives the stage it was
      started in: when it completes, its callback reaches the form whatever the
      stage is then. */
  datatype Page = Page(app: State, pending: multiset<ImageUpload.File>)

  const Start := Page(Initial, multiset{})

  datatype Event =
    | TypeName(value: string)
    | TypePrice(raw: string)
    | SubmitUrl(text: string)
    | PickFile(files: seq<ImageUpload.File>)
    | DropFiles(files: seq<ImageUpload.File>)
    | FileLoaded(file: ImageUpload.File, dataUrl: string)
    | RemoveImage
    | SubmitForm
    | GenerationDone
    | GenerationFailed
    | ClickClear
    | ToggleCaption(lang: Language)
    | TypeCaption(lang: Language, value: string)
    | ClickSend
    | SendDone
    | SendFailed
    | ClickBack
    | ResetTimerFires
    | CloseNotice

  /** The form with its fields, image widget and Generate and Clear buttons is
      rendered in the input stage only, the caption editors with the Send and Back
      buttons in the captions stage only, and nothing but the notification in the
      complete stage. The widget shows the remove button while there is an image
      and the drop zone, file input and URL box while there is none. A caption is
      editable only while expanded. The two failure events stand for the `catch`
      branches, which the simulated delays never take. The auto-reset timer is
      pending exactly in the complete stage, and a file read completes at any time
      after it started. */
  predicate Enabled(p: Page, e: Event) {
    var s := p.app;
    match e
    case TypeName(_) => s.stage == Input
    case TypePrice(_) => s.stage == Input
    case SubmitUrl(_) => s.stage == Input && s.form.image.None?
    case PickFile(_) => s.stage == Input && s.form.image.None?
    case DropFiles(_) => s.stage == Input && s.form.image.None?
    case FileLoaded(file, _) => file in p.pending
    case RemoveImage => s.stage == Input && s.form.image.Some?
    case SubmitForm => s.stage == Input && CanGenerate(s) && !s.isGenerating
    case GenerationDone => s.isGenerating
    case GenerationFailed => s.isGenerating
    case ClickClear => s.stage == Input && !s.isGenerating
    case ToggleCaption(_) => s.stage == Captions
    case TypeCaption(lang, _) => s.stage == Captions && s.expanded == Some(lang)
    case ClickSend => CanSend(s)
    case SendDone => s.isSending
    case SendFailed => s.isSending
    case ClickBack => s.stage == Captions && !s.isSending
    case ResetTimerFires => s.stage == Complete
    case CloseNotice => s.notice.Some?
  }

  /** The parent's `handleImageChange` run on each callback call in turn: the last
      call decides the image, and nothing but the image changes. */
  function Emit(s: State, emitted: seq<Option<ImageUpload.ImageData>>): (r: State)
    ensures r == s.(form := s.form.(image := r.form.image))
    ensures emitted == [] ==> r == s
    ensures emitted != [] ==> r.form.image == emitted[|emitted| - 1]
    decreases |emitted|
  {
    if emitted == [] then s else Emit(ImageChange(s, emitted[0]), emitted[1..])
  }

  /** A widget handler's effect on the page: its callback calls reach the form,
      and the reads it started become pending. */
  function ApplyReaction(p: Page, r: ImageUpload.Reaction): Page {
    Page(Emit(p.app, r.emitted), p.pending + multiset(r.started))
  }

  /** The URL box, open, holding the typed text. */
  function UrlBox(text: string): ImageUpload.Widget {
    ImageUpload.InitialWidget.(showUrlInput := true, urlValue := text)
  }

  /** The handler each event runs; the price field passes its text through the
      price filter first, and the auto-reset timer runs the clear handler. The
      widget's handlers run on a fresh widget: its hover flag does not affect the
      page, and of the URL box only the submitted text is kept, which leaves out
      the box's effect on form validation. */
  function Step(p: Page, e: Event): Page {
    var s := p.app;
    match e
    case TypeName(v) => p.(app := InputChange(s, ProductName, v))
    case TypePrice(raw) => p.(app := InputChange(s, ProductPrice, FormatPrice(raw)))
    case SubmitUrl(text) => ApplyReaction(p, ImageUpload.HandleUrlSubmit(UrlBox(text)))
    case PickFile(files) => ApplyReaction(p, ImageUpload.HandleFileInput(ImageUpload.InitialWidget, files))
    case DropFiles(files) => ApplyReaction(p, ImageUpload.HandleDrop(ImageUpload.InitialWidget, files))
    case FileLoaded(file, dataUrl) =>
      Page(ImageChange(s, Some(ImageUpload.ReadLoaded(file, dataUrl))), p.pending - multiset{file})
    case RemoveImage => ApplyReaction(p, ImageUpload.HandleRemoveImage(ImageUpload.InitialWidget))
    case SubmitForm => p.(app := GenerateSubmit(s))
    case GenerationDone => p.(app := GenerateResolve(s))
    case GenerationFailed => p.(app := GenerateReject(s))
    case ClickClear => p.(app := ClearForm(s))
    case ToggleCaption(lang) => p.(app := ToggleExpansion(s, lang))
    case TypeCaption(lang, v) => p.(app := CaptionChange(s, lang, v))
    case ClickSend => p.(app := SendStart(s))
    case SendDone => p.(app := SendResolve(s))
    case SendFailed => p.(app := SendReject(s))
    case ClickBack => p.(app := BackToForm(s))
    case ResetTimerFires => p.(app := ClearForm(s))
    case CloseNotice => p.(app := DismissNotice(s))
  }

  /** Runs the events in order; `None` when one of them is not enabled when it
      comes. */
  function Run(p: Page, events: seq<Event>): Option<Page>
    decreases |events|
  {
    if events == [] then Some(p)
    else if !Enabled(p, events[0]) then None
    else Run(Step(p, events[0]), events[1..])
  }

  /** Which controls each stage offers, on a page that keeps the invariant: in
      the complete stage only the auto-reset, the notification and a late file
      read; in the captions stage only the caption toggles and editors, Send, Back
      and the send they start, besides the notification and a late read; and in
      the input stage none of these. */
  lemma ControlsByStage(p: Page, e: Event)
    requires Inv(p) && Enabled(p, e)
    ensures p.app.stage == Complete ==> e.ResetTimerFires? || e.CloseNotice? || e.FileLoaded?
    ensures p.app.stage == Captions ==>
      || e.ToggleCaption? || e.TypeCaption? || e.ClickSend? || e.SendDone? || e.SendFailed?
      || e.ClickBack? || e.CloseNotice? || e.FileLoaded?
    ensures p.app.stage == Input ==>
      !(e.ToggleCaption? || e.TypeCaption? || e.ClickSend? || e.SendDone? || e.SendFailed?
        || e.ClickBack? || e.ResetTimerFires?)
  {
  }

  /** The price input hands its text to the change handler through the price
      filter, so the draft's price is the filtered text and nothing else changes. */
  lemma PriceFieldFilters(p: Page, raw: string)
    ensures var r := Step(p, TypePrice(raw));
      && r.app.form.productPrice == FormatPrice(raw) && PriceText(r.app.form.productPrice)
      && r == p.(app := p.app.(form := p.app.form.(productPrice := r.app.form.productPrice)))
  {
  }

  /** The auto-reset timer runs the clear handler: it does what Clear does, and
      leaves the form empty in the input stage. */
  lemma AutoResetClears(p: Page)
    ensures Step(p, ResetTimerFires) == Step(p, ClickClear)
    ensures var r := Step(p, ResetTimerFires);
      && r.app.form == EmptyForm && r.app.captions == EmptyCaptions && r.app.stage == Input
      && r.pending == p.pending
  {
  }

  /** An image the widget can report, or none. */
  predicate ImageOk(image: Option<ImageUpload.ImageData>) {
    image.Some? ==> ImageUpload.WellFormed(image.value)
  }

  /** What every reachable page satisfies: the `sending` stage never occurs, a
      generation is pending only in the input stage and a send only in the captions
      stage (so never both), the price fields hold only digits and points, the
      draft's and the submitted image are well formed, and only image files are
      being read. */
  predicate Inv(p: Page) {
    var s := p.app;
    && s.stage != Sending
    && (s.isGenerating ==> s.stage == Input)
    && (s.isSending ==> s.stage == Captions)
    && PriceText(s.form.productPrice)
    && PriceText(s.submitted.productPrice)
    && ImageOk(s.form.image)
    && ImageOk(s.submitted.image)
    && (forall f :: f in p.pending ==> StartsWith(f.mimeType, ImageUpload.ImageMimePrefix))
  }

  lemma InitialInv()
    ensures Inv(Start)
  {
  }

  /** Every enabled event keeps the invariant. */
  lemma StepPreservesInv(p: Page, e: Event)
    requires Inv(p) && Enabled(p, e)
    ensures Inv(Step(p, e))
  {
    match e
    case SubmitForm =>
      TrimEmptyIff(p.app.form.productName);
      TrimEmptyIff(p.app.form.productPrice);
    case PickFile(files) =>
      ImageUpload.ReadsOnlyImages(ImageUpload.InitialWidget, files);
    case DropFiles(files) =>
      ImageUpload.ReadsOnlyImages(ImageUpload.InitialWidget, files);
    case _ =>
  }

  /** Every run the page allows keeps the invariant. */
  lemma {:induction false} RunPreservesInv(p: Page, events: seq<Event>)
    requires Inv(p)
    ensures Run(p, events).Some? ==> Inv(Run(p, events).value)
    decreases |events|
  {
    if events != [] && Enabled(p, events[0]) {
      StepPreservesInv(p, events[0]);
      RunPreservesInv(Step(p, events[0]), events[1..]);
    }
  }

  /** From the initial page the `sending` stage is never reached, no send and
      generation are pending together, the price only ever holds digits and
      points, the draft's image is never both a file and a URL, a URL image is its
      own preview, and only image files are ever read. */
  lemma ReachableStates(events: seq<Event>)
    ensures Run(Start, events).Some? ==>
      var p := Run(Start, events).value;
      && p.app.stage != Sending
      && !(p.app.isGenerating && p.app.isSending)
      && PriceText(p.app.form.productPrice)
      && (p.app.form.image.Some? ==> ImageUpload.WellFormed(p.app.form.image.value))
      && (forall f :: f in p.pending ==> StartsWith(f.mimeType, ImageUpload.ImageMimePrefix))
  {
    InitialInv();
    RunPreservesInv(Start, events);
  }

  /** A URL typed into the widget's box reaches the draft trimmed, as both url
      and preview, or not at all when it has no visible character. */
  lemma UrlReachesForm(p: Page, text: string)
    ensures AllWhitespace(text) ==> Step(p, SubmitUrl(text)) == p
    ensures !AllWhitespace(text) ==>
      && Step(p, SubmitUrl(text)).pending == p.pending
      && Step(p, SubmitUrl(text)).app
         == p.app.(form := p.app.form.(image := Some(ImageUpload.ImageData(None, Some(Trim(text)), Trim(text)))))
  {
    var r := ImageUpload.HandleUrlSubmit(UrlBox(text));
    assert multiset(r.started) == multiset{};
  }

  /** Removal empties the draft's image and nothing else. */
  lemma RemoveEmptiesImage(p: Page)
    ensures Step(p, RemoveImage) == p.(app := p.app.(form := p.app.form.(image := None)))
  {
    assert multiset(ImageUpload.HandleRemoveImage(ImageUpload.InitialWidget).started) == multiset{};
  }

  /** A file choice or drop reports nothing at once and leaves a read pending
      exactly when the first file is an image. */
  lemma FileChoiceStartsRead(p: Page, files: seq<ImageUpload.File>)
    ensures Step(p, PickFile(files)).app == p.app && Step(p, DropFiles(files)).app == p.app
    ensures files != [] && StartsWith(files[0].mimeType, ImageUpload.ImageMimePrefix) ==>
      && Step(p, PickFile(files)).pending == p.pending + multiset{files[0]}
      && Step(p, DropFiles(files)).pending == p.pending + multiset{files[0]}
    ensures files == [] || !StartsWith(files[0].mimeType, ImageUpload.ImageMimePrefix) ==>
      Step(p, PickFile(files)) == p && Step(p, DropFiles(files)) == p
  {
    if files != [] {
      assert multiset([files[0]]) == multiset{files[0]};
    }
  }

  /** A pending read completes in whatever stage the page is in: it sets the
      draft's image to the file with its data URL and changes nothing else. */
  lemma ReadCompletesInAnyStage(p: Page, file: ImageUpload.File, dataUrl: string)
    requires Inv(p) && file in p.pending
    ensures Enabled(p, FileLoaded(file, dataUrl))
    ensures var r := Step(p, FileLoaded(file, dataUrl));
      && r.app == p.app.(form := p.app.form.(image := Some(ImageUpload.ImageData(Some(file), None, dataUrl))))
      && r.pending == p.pending - multiset{file}
      && Inv(r)
  {
    StepPreservesInv(p, FileLoaded(file, dataUrl));
  }

  /** An image dropped while the captions are being generated can arrive after
      they are: the captions stage is reached with the read still pending, and its
      completion then sets the draft's image there. */
  lemma LateImageAfterGeneration(p: Page, file: ImageUpload.File, dataUrl: string)
    requires Inv(p) && Enabled(p, SubmitForm) && p.app.form.image.None?
    requires StartsWith(file.mimeType, ImageUpload.ImageMimePrefix)
    ensures var a := Step(p, SubmitForm);
      && Enabled(a, DropFiles([file]))
      && var b := Step(a, DropFiles([file]));
      && Enabled(b, GenerationDone)
      && var c := Step(b, GenerationDone);
      && c.app.stage == Captions && file in c.pending
      && Enabled(c, FileLoaded(file, dataUrl))
      && var d := Step(c, FileLoaded(file, dataUrl));
      && d.app.stage == Captions
      && d.app.form.image == Some(ImageUpload.ImageData(Some(file), None, dataUrl))
      && d.app.captions == c.app.captions
  {
    var a := Step(p, SubmitForm);
    FileChoiceStartsRead(a, [file]);
  }

  /** The Generate button is enabled exactly in the input stage, with no
      generation pending and a visible character in both the name and the price. */
  lemma SubmitEnabledExactly(p: Page)
    ensures Enabled(p, SubmitForm) <==>
      && p.app.stage == Input && !p.app.isGenerating
      && !AllWhitespace(p.app.form.productName) && !AllWhitespace(p.app.form.productPrice)
  {
    TrimEmptyIff(p.app.form.productName);
    TrimEmptyIff(p.app.form.productPrice);
  }

  /** So an enabled Generate button never meets the handler's rejection. */
  lemma SubmitEnabledStarts(p: Page)
    ensures Enabled(p, SubmitForm) ==>
      GenerateSubmit(p.app) == p.app.(isGenerating := true, submitted := p.app.form)
  {
    SubmitEnabledExactly(p);
  }

  /** A full generation from the input stage with a visible name and price and
      nothing pending: Generate is enabled, the completion is then pending, and
      once it arrives the captions stage shows captions that mention the name,
      the price and the hashtag, a success notice is up, nothing is busy, Send is
      enabled, and pending file reads are untouched. */
  lemma GenerateCycle(p: Page)
    requires Inv(p) && p.app.stage == Input && !p.app.isGenerating
    requires !AllWhitespace(p.app.form.productName) && !AllWhitespace(p.app.form.productPrice)
    ensures Enabled(p, SubmitForm)
    ensures var mid := Step(p, SubmitForm);
      && Enabled(mid, GenerationDone)
      && var r := Step(mid, GenerationDone);
      && r.app.stage == Captions && !r.app.isGenerating && !r.app.isSending
      && r.app.notice == Some(Notice(GeneratedMessage, Success))
      && r.app.form == p.app.form && r.pending == p.pending
      && var name, price := p.app.form.productName, p.app.form.productPrice;
      && Contains(r.app.captions.french, name) && Contains(r.app.captions.english, name)
      && Contains(r.app.captions.french, price) && Contains(r.app.captions.english, price)
      && Contains(r.app.captions.french, "#" + Hashtag(name))
      && Contains(r.app.captions.english, "#" + Hashtag(name))
      && CanSend(r.app)
  {
    SubmitEnabledExactly(p);
    SubmitEnabledStarts(p);
    var mid := Step(p, SubmitForm);
    assert mid == p.(app := p.app.(isGenerating := true, submitted := p.app.form));
    var r := Step(mid, GenerationDone);
    assert r.app.captions == BuildCaptions(p.app.form);
    TrimEmptyIff(r.app.captions.french);
    TrimEmptyIff(r.app.captions.english);
  }

  /** A full send from an enabled Send button: Send, its completion and the
      auto-reset are each enabled in turn, and the end state is the clear of the
      complete state: empty draft and captions, the input stage, nothing busy, the
      success notice still up and the expanded caption as it was. */
  lemma SendCycle(p: Page)
    requires Inv(p) && Enabled(p, ClickSend)
    ensures var a := Step(p, ClickSend);
      && Enabled(a, SendDone)
      && var b := Step(a, SendDone);
      && b.app.stage == Complete && !b.app.isSending
      && Enabled(b, ResetTimerFires)
      && var r := Step(b, ResetTimerFires);
      && r.app == ClearForm(b.app) && r.pending == p.pending
      && r.app.form == EmptyForm && r.app.captions == EmptyCaptions && r.app.stage == Input
      && !r.app.isGenerating && !r.app.isSending
      && r.app.notice == Some(Notice(SentMessage, Success))
      && r.app.expanded == p.app.expanded
  {
  }

  /** Back leaves the draft and the captions as they were, so regenerating from
      there builds the captions from the same name and price. */
  lemma BackKeepsWork(p: Page)
    requires Inv(p) && Enabled(p, ClickBack)
    ensures var r := Step(p, ClickBack);
      && r.app.stage == Input && r.app.expanded == None
      && r.app.form == p.app.form && r.app.captions == p.app.captions
      && !r.app.isGenerating && !r.app.isSending
  {
  }

  /** Typing a name and a price that have visible characters and pressing
      Generate is enabled at every step and reaches the captions stage with Send
      enabled and captions that mention the name, the filtered price and the
      hashtag. */
  lemma TypeAndGenerate(name: string, price: string)
    requires !AllWhitespace(name) && !AllWhitespace(FormatPrice(price))
    ensures var s1 := Step(Start, TypeName(name));
      && var s2 := Step(s1, TypePrice(price));
      && var s3 := Step(s2, SubmitForm);
      && var c := Step(s3, GenerationDone);
      && Enabled(Start, TypeName(name)) && Enabled(s1, TypePrice(price))
      && Enabled(s2, SubmitForm) && Enabled(s3, GenerationDone)
      && Inv(c) && Enabled(c, ClickSend)
      && c.app.form == FormData(name, FormatPrice(price), None)
      && Contains(c.app.captions.english, name) && Contains(c.app.captions.english, FormatPrice(price))
      && Contains(c.app.captions.french, name) && Contains(c.app.captions.french, FormatPrice(price))
      && Contains(c.app.captions.english, "#" + Hashtag(name))
      && Contains(c.app.captions.french, "#" + Hashtag(name))
  {
    var s1 := Step(Start, TypeName(name));
    var s2 := Step(s1, TypePrice(price));
    assert Inv(s2) by {
      InitialInv();
      StepPreservesInv(Start, TypeName(name));
      StepPreservesInv(s1, TypePrice(price));
    }
    GenerateCycle(s2);
    StepPreservesInv(s2, SubmitForm);
    StepPreservesInv(Step(s2, SubmitForm), GenerationDone);
  }

  /** The worked example: name "Red Shoes" and price "15000" produce captions that
      mention both and the hashtag "#RedShoes"; sending them is enabled and ends
      with an empty form and empty captions in the input stage. */
  lemma RedShoesExample(name: string, price: string)
    requires name == "Red Shoes" && price == "15000"
    ensures var c := Step(Step(Step(Step(Start, TypeName(name)), TypePrice(price)), SubmitForm), GenerationDone);
      && Contains(c.app.captions.english, "Red Shoes") && Contains(c.app.captions.english, "15000")
      && Contains(c.app.captions.french, "Red Shoes") && Contains(c.app.captions.french, "15000")
      && Contains(c.app.captions.english, "#RedShoes") && Contains(c.app.captions.french, "#RedShoes")
      && Enabled(c, ClickSend)
      && var r := Step(Step(Step(c, ClickSend), SendDone), ResetTimerFires);
      && r.app.form == EmptyForm && r.app.captions == EmptyCaptions && r.app.stage == Input
  {
    assert FormatPrice(price) == price by {
      FormatPriceIdempotent(price);
    }
    assert "#" + Hashtag(name) == "#RedShoes" by {
      assert name == "Red" + (" " + "Shoes");
      HashtagJoinsWords("Red", " ", "Shoes");
    }
    assert !IsWhitespace(name[0]) && !IsWhitespace(price[0]);
    TypeAndGenerate(name, price);
    var c := Step(Step(Step(Step(Start, TypeName(name)), TypePrice(price)), SubmitForm), GenerationDone);
    SendCycle(c);
  }
}
